=== FILE: README.md ===
# RPM-To-Locked-Rotor: a Dafny model of the channel state machine and the tick source

The firmware turns a PC-fan tachometer signal into an industrial "locked
rotor" signal, one channel per fan. Each channel runs a small state machine
(`fsm_run` in `src/main.c`). For a short while after power-on it leaves the
output floating. It then drives the output low while the fan spins up. From
spin-up on it counts tachometer level changes over fixed sample windows. In RUNNING
it floats the output (alarm) after a window with fewer than 40 changes, and
drives it low (OK) otherwise. All durations are measured with `jiffies()`
(`src/jiffies.c`). This is a tick counter built from the 8-bit Timer 0 count,
its overflow flag and a software accumulator that the overflow interrupt
advances by 256.

The model has five modules:

- `Modular` (`modular.dfy`): unsigned `w`-bit arithmetic. `Add` and `Sub` are
  the C `+` and `-` on `jiffies_t`. The width `w >= 16` is a parameter.
- `Fsm` (`fsm.dfy`): one `Channel` record and the pure transition `Step`.
  The record has the fields of `struct rpm_to_locked_rotor_channel` plus
  `output`, the last command given to the pin (initially `Float`). The
  helpers `DetectEdge`, `CloseWindow` and `Accumulate` are the edge-counting
  sub-algorithm that SPIN_UP and RUNNING share.
- `FsmTrace` (`fsm_trace.dfy`): runs of one channel over a sequence of
  `(tick, input)` samples. It covers forward-only progress, the output
  invariant, and the count of one sample window. The window count is checked
  against an independent count of level changes, `Edges`.
- `TickSource` (`tick_source.dfy`): the timer as an abstract state
  `(hi, Counter(tcnt, ovf), irqEnabled)`. It has hardware `Tick` and
  interrupt `Isr` events, `JiffiesInit`, and `Jiffies`, whose sampling loop
  is a `while` loop with invariants. `Now` is the abstract elapsed time
  `hi + tcnt + 256·ovf (mod 2^w)`.
- `App` (`app.dfy`): `FsmRun` reads the clock once and steps both channels
  with that value. `MainLoop` is `main` over a finite list of rounds.

Constants are taken from the source: POWER_ON_JIFFIES = 0,
SPIN_UP_JIFFIES = 5 · SAMPLE_JIFFIES, TOGGLE_COUNT_THRESHOLD = 40,
NUM_CHANNELS = 2, and a 32-bit `toggles` whose `++` wraps. SAMPLE_JIFFIES is
`JIFFIES_PER_SECOND` (src/main.c:25). That constant and the width of
`jiffies_t` come from `jiffies.h`, which is not part of this model. They are
the parameters `Config.sampleJiffies` and `Config.width`.

Four behaviours of the code are easy to miss:

- The step that moves SPIN_UP to RUNNING does not touch the pin. The output
  is therefore still "drive low" until the next pass, which is the first
  pass in RUNNING to set the pin from `under_threshold`. `OutputConsistent`
  allows exactly this: in RUNNING the output is low or follows the verdict.
- No step that stays in INIT or POWER_ON commands the pin. The output is
  floating there only because the pin starts as an input. The step that
  leaves POWER_ON drives it low (src/main.c:137).
- `jiffies_init` enables the Timer 0 overflow interrupt (`TIMSK`) and
  restores the global interrupt-enable bit it found. It does not set the
  global interrupt-enable bit itself; `main` calls `sei()` first.
- SPIN_UP_JIFFIES is compared with an unsigned tick difference, which is at
  most 2^w - 1. If SPIN_UP_JIFFIES is not below that, SPIN_UP never ends.

## Model

| member | source | states |
|---|---|---|
| Modular.AddSub | src/main.c:136 | adding the wrap-around difference back to the earlier tick gives the later tick, so the difference is the elapsed ticks modulo 2^w |
| Modular.SubUnique | src/main.c:136 | the wrap-around difference is the only `w`-bit value with that property |
| Modular.SubOfResidues | src/main.c:150 | the difference of two tick values read modulo 2^w is the true number of ticks between them, modulo 2^w |
| Modular.Add | src/jiffies.c:56 | `timer_ticks_hi + tcnt` on `jiffies_t`: the true sum when it fits, the sum minus 2^w when it wraps once |
| Fsm.DetectEdge | src/main.c:144-148 | afterwards the remembered level is the current input; `toggles` grows by 1 (mod 2^32) exactly when the input changed; no other field changes |
| Fsm.CloseWindow | src/main.c:150-158 | when more than SAMPLE_JIFFIES ticks have passed since the window began, the verdict becomes `toggles < 40`, `toggles` is reset to 0 and the window restarts now; otherwise nothing changes |
| Fsm.Accumulate | src/main.c:166-180 | the edge of this step is counted before the window check, so it belongs to the window being closed; the state, the state time and the pin are untouched |
| Fsm.Step | src/main.c:129-193 | the state rank never falls and rises by at most 1; INIT goes to POWER_ON and records the time; POWER_ON goes to SPIN_UP exactly when the elapsed time exceeds POWER_ON_JIFFIES, driving the pin low and starting both timers, and otherwise nothing changes; SPIN_UP goes to RUNNING exactly when the elapsed time exceeds SPIN_UP_JIFFIES and never changes the pin; RUNNING is absorbing and leaves the pin floating exactly when the verdict is "under threshold" |
| Fsm.InitialConsistent | src/main.c:84-85 | the statically zero-initialised channel is in INIT with a floating output and no toggles |
| Fsm.StepKeepsOutputConsistent | src/main.c:129-193 | every step keeps the output a function of the state: floating in INIT and POWER_ON, low in SPIN_UP, and in RUNNING floating only on an "under threshold" verdict |
| Fsm.SpinUpEndsOnlyIfReachable | src/main.c:160-163 | a SPIN_UP channel leaves SPIN_UP for some tick value exactly when SPIN_UP_JIFFIES is below 2^w - 1: otherwise every step keeps it in SPIN_UP, and when it is below, the tick value 2^w - 1 ticks after entering SPIN_UP ends it |
| Fsm.SpinUpEndsWithVerdict | src/main.c:27-32 | because SPIN_UP lasts five whole windows, a channel that has closed no window since entering SPIN_UP closes one on the step that enters RUNNING |
| FsmTrace.RunRankBounds | src/main.c:129-193 | along any run the state rank never falls and rises by at most the number of steps |
| FsmTrace.NeverRegresses | src/main.c:129-193 | a later point of any run is never in an earlier state than an earlier point |
| FsmTrace.RunningIsAbsorbing | src/main.c:165-188 | once in RUNNING, a channel stays in RUNNING for any run |
| FsmTrace.RunKeepsOutputConsistent | src/main.c:129-193 | the output stays consistent with the state along any run |
| FsmTrace.ReachableOutputConsistent | src/main.c:117-195 | every channel stepped from power-on shows the output its state calls for |
| FsmTrace.StepInsideWindow | src/main.c:166-170 | a SPIN_UP or RUNNING step that closes no window adds the step's edge to the count and changes neither the verdict nor the window start |
| FsmTrace.WindowAccumulates | src/main.c:143-180 | inside one window the toggle count grows by exactly the number of input level changes (mod 2^32) and the remembered level is the last one seen |
| FsmTrace.WindowVerdict | src/main.c:165-187 | when a window closes, its verdict is "fewer than 40 level changes since the window opened, the closing step's change included", and the count restarts at 0 |
| FsmTrace.RunningPinFollowsVerdict | src/main.c:181-187 | after any non-empty run from RUNNING, the channel is still in RUNNING and its pin is high exactly when the verdict is "under threshold", so the step that closes a window drives the pin from that window's verdict |
| TickSource.TicksAdvanceNow | src/jiffies.c:4-6 | while no overflow is lost, `n` hardware counts advance the abstract time by exactly `n` modulo 2^w |
| TickSource.Isr | src/jiffies.c:16-19 | the overflow interrupt adds 256 to `timer_ticks_hi`, clears the pending flag, leaves the abstract time unchanged and keeps `hi` a multiple of 256 |
| TickSource.AddPeriodKeepsWhole | src/jiffies.c:18 | adding 256 modulo 2^w keeps a multiple of 256 a multiple of 256 |
| TickSource.JiffiesInit | src/jiffies.c:21-38 | initialisation leaves no pending overflow, abstract time 0, `hi` a multiple of 256 and the interrupt-enable bit as it was |
| TickSource.Jiffies | src/jiffies.c:40-65 | the sampling loop ends after the first pass exactly when that pass's two TIFR reads agree, and otherwise after exactly two passes; `readAt` and `spent` are the counts before the TCNT0 read and before the end of the critical section in the pass that ends the loop; the count is read under a consistent overflow flag; the result is the abstract time at the instant TCNT0 was read; if no overflow is lost, it is the entry time plus the counts before the read; the interrupt-enable bit is restored |
| TickSource.ApplyNow | src/jiffies.c:16-19 | a hardware count adds 1 to the abstract time and an interrupt adds 0 |
| TickSource.ReplayKeepsInv | src/jiffies.c:16-19 | under any interleaving of counts and interrupts, `hi` stays a multiple of 256 |
| TickSource.ReplayNow | src/jiffies.c:4-6 | under any interleaving without a lost overflow, the abstract time moves by the number of hardware counts modulo 2^w; interrupts do not move it |
| App.FsmRun | src/main.c:117-195 | the clock is read once, in the pass of `jiffies()` that the timer's counter decides; every channel is stepped with that one value and its own input, and its new record depends only on its own old record |
| TickSource.ReadIsNow | src/jiffies.c:56-62 | accumulator plus count, plus 256 when the flag was seen set, is the abstract time at the instant TCNT0 was read |
| App.ServeRound | src/main.c:210-212 | one main-loop pass: the round's events are replayed, then every channel becomes `Step` of its old record with the one tick value and its own input. The tick value is the abstract time of the replayed timer at the TCNT0 read, in the pass of `jiffies()` that the replayed counter decides. The timer on return is the replayed timer after the critical section's counts. The count at the read and at the end is the entry count plus the round's hardware counts plus the counts into the critical section. `ok` holds exactly when no count among the events and none in the critical section loses an overflow. While `ok` holds, the tick value is the count modulo 2^w |
| App.NextRound | src/main.c:210-212 | serving one more round extends the record of the run by that round: every channel is stepped once more with the new tick value, which is the abstract time at that round's TCNT0 read of the timer the earlier rounds left; the counts, the pass of each read and the timer are extended the same way, whether or not an overflow was lost |
| App.StampsMeasureCounts | src/main.c:136 | tick values that are a nondecreasing count modulo 2^w measure time: the wrap-around difference of two of them is the count between them, modulo 2^w |
| App.MainLoop | src/main.c:197-213 | over any finite run of `main`, every channel is `Run` of the zero-initialised record over its own inputs, each paired with the tick value read in that round. That tick value is always the abstract time, at the TCNT0 read, of the timer left by `sei()`, `jiffies_init`, the earlier rounds and this round's events (`StampsInv`), even in a run that lost an overflow. Every channel shows the output its state calls for. Each round's TCNT0 read is in the pass of `jiffies()` that the counter left by the earlier rounds and this round's events decides. The `k`-th count is the hardware counts of all earlier rounds and their critical sections, plus this round's events, plus the counts up to the TCNT0 read; these counts never decrease. The final timer is the timer after `sei()` and `jiffies_init` with every round replayed. `faithful` holds exactly when no round lost an overflow (`Faithful`). While it holds, every tick value is its count modulo 2^w, and the wrap-around difference of two tick values is the number of counts between them |

## Left out

- Pin plumbing (`read_input`, `float_high`, `drive_low`, src/main.c:88-114) is bit operations on AVR I/O registers. The input level is a parameter of `Step`, and the pin is the abstract `output` field.
- Board bring-up is left out because it has no logic: the Timer 0 configuration (`TCCR0A`, `TCCR0B`, `TIMSK`, the prescaler) and `MCUCR`. `sei()` becomes `irqEnabled := true`. The write that clears the `TIFR` flag is modelled as clearing `ovf`.
- `src/platform.h` is inline assembly that saves and clears, and later restores, the interrupt bit in SREG. It becomes `SpinLockIrqSave` and `SpinUnlockIrqRestore` on `irqEnabled`.
- The endless `while (1)` in `main` becomes a finite list of rounds (`MainLoop`).
- Preemption at arbitrary instruction boundaries is not modelled; only whole events are. Hardware counts and interrupts are `Event`s applied between `fsm_run` calls. Counts inside the critical section of `jiffies()` come from the list `env`, which gives the counts before each register read.
- Interrupts that fire while `fsm_run` steps the channels are folded into the next round's events. Channels never read the timer after the one `jiffies()` call, so this makes no difference.
- The `default:` branch of the switch (src/main.c:189-192) is unreachable with a closed datatype of states, so it is omitted.
- `jiffies.h` is not part of this model. The width of `jiffies_t` (at least 16 bits) and `JIFFIES_PER_SECOND`, and so SAMPLE_JIFFIES, are parameters. `Config.Valid` asks only for the width; SPIN_UP_JIFFIES may be any value, as in the source.
- TickSource.Jiffies: the "ticks since `jiffies_init`" part of its contract holds only while at most one overflow is pending (`CanTick`). This is AVR hardware behaviour that the source does not show. The flag is cleared on entry to the interrupt, and a second wrap while the flag is set loses an overflow. The contract's unconditional part is that the result is the abstract time at the read.
- App.ServeRound and App.MainLoop: the claim that tick values equal counts modulo 2^w carries the same hardware assumption. `ok` and `faithful` report exactly whether it held: `RoundFaithful` combines `Admissible` for the events between calls with `CanTick` for each critical section, and `Faithful` requires it of every round. Everything else in these two contracts holds for any interleaving.

=== FILE: app.dfy ===
/**
  The top level of src/main.c: `fsm_run` steps every channel once, all with
  the one tick value it read, and `main` enables interrupts, initialises the
  tick source and calls `fsm_run` forever -- here, once per given round.
 */
module App {
  import opened Modular
  import opened Fsm
  import opened FsmTrace
  import TS = TickSource

  /** The firmware serves two channels. */
  const NUM_CHANNELS: nat := 2

  /** The channel array of `struct rpm_to_locked_rotor_app`. */
  predicate AppWellFormed(cfg: Config, app: seq<Channel>)
  {
    |app| == NUM_CHANNELS && forall i :: 0 <= i < |app| ==> WellFormed(cfg, app[i])
  }

  /**
    `fsm_run`: read the tick source once, then step channel 0, 1, ... with
    that same tick value and each channel's own input level.  A channel's new
    record depends only on its old record and its own input.
   */
  method FsmRun(cfg: Config, app: seq<Channel>, timer: TS.Timer, env: seq<nat>, inputs: seq<bool>)
    returns (app': seq<Channel>, timer': TS.Timer, now: nat, readAt: nat, spent: nat)
    requires cfg.Valid() && AppWellFormed(cfg, app) && |inputs| == NUM_CHANNELS
    requires TS.WellFormed(cfg.width, timer) && |env| == TS.READ_SLOTS
    ensures TS.OneOrTwoPasses(timer.counter, env, readAt, spent) && readAt <= spent
    ensures TS.WellFormed(cfg.width, timer.(counter := TS.Ticks(timer.counter, readAt)))
    ensures now == TS.Now(cfg.width, timer.(counter := TS.Ticks(timer.counter, readAt)))
    ensures timer' == timer.(counter := TS.Ticks(timer.counter, spent))
    ensures AppWellFormed(cfg, app')
    ensures forall i :: 0 <= i < NUM_CHANNELS ==> app'[i] == Step(cfg, app[i], now, inputs[i])
  {
    now, timer', readAt, spent := TS.Jiffies(cfg.width, timer, env);
    app' := app;
    var i := 0;
    while i < NUM_CHANNELS
      invariant 0 <= i <= NUM_CHANNELS && |app'| == NUM_CHANNELS
      invariant forall j :: 0 <= j < i ==> app'[j] == Step(cfg, app[j], now, inputs[j])
      invariant forall j :: i <= j < NUM_CHANNELS ==> app'[j] == app[j]
    {
      app' := app'[i := Step(cfg, app'[i], now, inputs[i])];
      i := i + 1;
    }
  }

  /**
    One turn of the main loop as the outside world sees it: the hardware
    events since the previous `fsm_run` call, the counts during this call's
    critical section, and the channels' input levels.
   */
  datatype Round = Round(events: seq<TS.Event>, env: seq<nat>, inputs: seq<bool>)

  predicate RoundShaped(r: Round)
  {
    |r.env| == TS.READ_SLOTS && |r.inputs| == NUM_CHANNELS
  }

  predicate RoundsShaped(rounds: seq<Round>)
  {
    forall k :: 0 <= k < |rounds| ==> RoundShaped(rounds[k])
  }

  /** The timer as `fsm_run` finds it after a round's events: the state its `jiffies()` call samples. */
  function Ready(w: nat, t: TS.Timer, round: Round): (r: TS.Timer)
    requires ValidWidth(w) && TS.WellFormed(w, t)
    ensures TS.WellFormed(w, r)
  {
    TS.Replay(w, t, round.events)
  }

  /** The timer after a round whose critical section lasted `spent` counts. */
  function Served(w: nat, t: TS.Timer, round: Round, spent: nat): (r: TS.Timer)
    requires ValidWidth(w) && TS.WellFormed(w, t)
    ensures TS.WellFormed(w, r)
  {
    var t1 := Ready(w, t, round);
    t1.(counter := TS.Ticks(t1.counter, spent))
  }

  /** The hardware lost no overflow in the round: neither among its events nor inside `jiffies()`. */
  predicate RoundFaithful(w: nat, t: TS.Timer, round: Round, spent: nat)
    requires ValidWidth(w) && TS.WellFormed(w, t)
  {
    TS.Admissible(w, t, round.events) && TS.CanTick(Ready(w, t, round).counter, spent)
  }

  /**
    One round: the hardware events since the last call, then `fsm_run`.
    `total` counts the hardware ticks since `jiffies_init()` on entry; `count`
    is that count at the instant TCNT0 is read and `total'` the count on
    return.  `ok` says whether the hardware lost an overflow in this round;
    while none is lost, tick values are those counts modulo 2^w.
   */
  method ServeRound(cfg: Config, app: seq<Channel>, t: TS.Timer, total: nat, round: Round)
    returns (app': seq<Channel>, t': TS.Timer, now: nat, count: nat, total': nat,
             readAt: nat, spent: nat, ok: bool)
    requires cfg.Valid() && AppWellFormed(cfg, app) && RoundShaped(round)
    requires TS.Inv(cfg.width, t)
    ensures AppWellFormed(cfg, app') && InRange(cfg.Modulus(), now)
    ensures forall i :: 0 <= i < NUM_CHANNELS ==> app'[i] == Step(cfg, app[i], now, round.inputs[i])
    ensures forall i :: 0 <= i < NUM_CHANNELS ==>
              Rank(app[i].state) <= Rank(app'[i].state) <= Rank(app[i].state) + 1
    ensures forall i :: 0 <= i < NUM_CHANNELS ==>
              OutputConsistent(app[i]) ==> OutputConsistent(app'[i])
    ensures TS.OneOrTwoPasses(Ready(cfg.width, t, round).counter, round.env, readAt, spent) && readAt <= spent
    ensures var t1 := Ready(cfg.width, t, round);
            now == TS.Now(cfg.width, t1.(counter := TS.Ticks(t1.counter, readAt)))
    ensures t' == Served(cfg.width, t, round, spent)
    ensures TS.Inv(cfg.width, t') && t'.irqEnabled == t.irqEnabled
    ensures count == total + TS.TickCount(round.events) + readAt
    ensures total' == total + TS.TickCount(round.events) + spent
    ensures ok == RoundFaithful(cfg.width, t, round, spent)
    ensures ok && TS.Now(cfg.width, t) == total % Pow2(cfg.width) ==>
              now == count % Pow2(cfg.width) && TS.Now(cfg.width, t') == total' % Pow2(cfg.width)
  {
    var w := cfg.width;
    ok := TS.Admissible(w, t, round.events);
    TS.ReplayKeepsInv(w, t, round.events);
    var t1 := TS.Replay(w, t, round.events);
    var before := total + TS.TickCount(round.events);
    if ok {
      TS.ReplayNow(w, t, round.events);
      ModAddLeft(total, TS.TickCount(round.events), Pow2(w));
    }
    app', t', now, readAt, spent := FsmRun(cfg, app, t1, round.env, round.inputs);
    ok := ok && TS.CanTick(t1.counter, spent);
    if ok {
      TS.TicksAdvanceNow(w, t1, spent);
      TS.TicksAdvanceNow(w, t1, readAt);
      ModAddLeft(before, readAt, Pow2(w));
      ModAddLeft(before, spent, Pow2(w));
    }
    forall i | 0 <= i < NUM_CHANNELS
      ensures OutputConsistent(app[i]) ==> OutputConsistent(app'[i])
    {
      if OutputConsistent(app[i]) {
        StepKeepsOutputConsistent(cfg, app[i], now, round.inputs[i]);
      }
    }
    count, total' := before + readAt, before + spent;
  }

  /** The timer `main` hands to its first `fsm_run`: `sei()`, then `jiffies_init()`. */
  function Started(w: nat, t0: TS.Timer): (r: TS.Timer)
    requires ValidWidth(w)
    ensures TS.Inv(w, r) && r.irqEnabled
  {
    TS.JiffiesInit(w, t0.(irqEnabled := true))
  }

  /** The timer after the given rounds, the `k`-th critical section lasting `spents[k]` counts. */
  function After(w: nat, t: TS.Timer, rounds: seq<Round>, spents: seq<nat>): (r: TS.Timer)
    requires ValidWidth(w) && TS.WellFormed(w, t) && |spents| == |rounds|
    ensures TS.WellFormed(w, r)
    decreases |rounds|
  {
    if |rounds| == 0 then
      t
    else
      var n := |rounds| - 1;
      Served(w, After(w, t, rounds[..n], spents[..n]), rounds[n], spents[n])
  }

  /** No round of the run lost an overflow. */
  predicate Faithful(w: nat, t: TS.Timer, rounds: seq<Round>, spents: seq<nat>)
    requires ValidWidth(w) && TS.WellFormed(w, t) && |spents| == |rounds|
    decreases |rounds|
  {
    || |rounds| == 0
    || (var n := |rounds| - 1;
        && Faithful(w, t, rounds[..n], spents[..n])
        && RoundFaithful(w, After(w, t, rounds[..n], spents[..n]), rounds[n], spents[n]))
  }

  /** Hardware counts over whole rounds: each round's events plus its critical section. */
  function CountOver(rounds: seq<Round>, spents: seq<nat>): nat
    requires |spents| == |rounds|
    decreases |rounds|
  {
    if |rounds| == 0 then
      0
    else
      var n := |rounds| - 1;
      CountOver(rounds[..n], spents[..n]) + TS.TickCount(rounds[n].events) + spents[n]
  }

  /** What channel `i` sees over a run: each round's tick value and its own input level. */
  function ChannelSamples(stamps: seq<nat>, rounds: seq<Round>, i: nat): (r: seq<Sample>)
    requires |stamps| == |rounds| && i < NUM_CHANNELS && RoundsShaped(rounds)
    ensures |r| == |rounds|
    ensures forall k :: 0 <= k < |r| ==> r[k] == Sample(stamps[k], rounds[k].inputs[i])
  {
    seq(|rounds|, k requires 0 <= k < |rounds| => Sample(stamps[k], rounds[k].inputs[i]))
  }

  /** What `main` has produced after some rounds; `total` counts the hardware ticks since `jiffies_init()`. */
  datatype Looping = Looping(
    app: seq<Channel>,
    t: TS.Timer,
    stamps: seq<nat>,
    counts: seq<nat>,
    readAts: seq<nat>,
    spents: seq<nat>,
    faithful: bool,
    total: nat)

  /** After the rounds `done`, each channel is the initial record stepped with the tick values read. */
  predicate ChannelsInv(cfg: Config, done: seq<Round>, app: seq<Channel>, stamps: seq<nat>)
    requires cfg.Valid() && RoundsShaped(done)
  {
    && |stamps| == |done|
    && AppWellFormed(cfg, app)
    && (forall j :: 0 <= j < |stamps| ==> InRange(cfg.Modulus(), stamps[j]))
    && (forall i :: 0 <= i < NUM_CHANNELS ==>
          app[i] == Run(cfg, Initial(), ChannelSamples(stamps, done, i)))
    && (forall i :: 0 <= i < NUM_CHANNELS ==> OutputConsistent(app[i]) && Rank(app[i].state) <= |done|)
  }

  /** After the rounds `done`, each TCNT0 read happened after every count before it, and `total` counts them all. */
  predicate CountsInv(done: seq<Round>, counts: seq<nat>, readAts: seq<nat>, spents: seq<nat>, total: nat)
    requires RoundsShaped(done)
  {
    && |counts| == |readAts| == |spents| == |done|
    && total == CountOver(done, spents)
    && (forall j :: 0 <= j < |done| ==> readAts[j] <= spents[j])
    && (forall j :: 0 <= j < |done| ==>
          counts[j] == CountOver(done[..j], spents[..j]) + TS.TickCount(done[j].events) + readAts[j])
    && (forall j :: 0 <= j < |done| ==> counts[j] <= total)
    && (forall i, j :: 0 <= i < j < |done| ==> counts[i] <= counts[j])
  }

  /** The timer the `j`-th round's `jiffies()` call samples, after the rounds before it from timer `s0`. */
  function Sampled(w: nat, s0: TS.Timer, done: seq<Round>, spents: seq<nat>, j: nat): (r: TS.Timer)
    requires ValidWidth(w) && TS.WellFormed(w, s0) && |spents| == |done| && j < |done|
    ensures TS.WellFormed(w, r)
  {
    Ready(w, After(w, s0, done[..j], spents[..j]), done[j])
  }

  /** After the rounds `done` from timer `s0`, each round's TCNT0 read is in the pass the sampled counter decides. */
  predicate PassesInv(w: nat, s0: TS.Timer, done: seq<Round>, readAts: seq<nat>, spents: seq<nat>)
    requires ValidWidth(w) && TS.WellFormed(w, s0) && RoundsShaped(done)
    requires |readAts| == |spents| == |done|
  {
    forall j :: 0 <= j < |done| ==>
      TS.OneOrTwoPasses(Sampled(w, s0, done, spents, j).counter, done[j].env, readAts[j], spents[j])
  }

  /** After the rounds `done` from timer `s0`, each round's tick value is `Now` of the sampled timer at its TCNT0 read. */
  predicate StampsInv(w: nat, s0: TS.Timer, done: seq<Round>, stamps: seq<nat>, readAts: seq<nat>, spents: seq<nat>)
    requires ValidWidth(w) && TS.WellFormed(w, s0)
    requires |stamps| == |readAts| == |spents| == |done|
  {
    forall j {:trigger stamps[j]} :: 0 <= j < |done| ==>
      var c := Sampled(w, s0, done, spents, j);
      stamps[j] == TS.Now(w, c.(counter := TS.Ticks(c.counter, readAts[j])))
  }

  /** After the rounds `done` from timer `s0`: the timer, whether an overflow was lost, and the tick values. */
  predicate ClockInv(w: nat, s0: TS.Timer, done: seq<Round>, t: TS.Timer, spents: seq<nat>, faithful: bool,
                     total: nat, stamps: seq<nat>, counts: seq<nat>)
    requires ValidWidth(w) && TS.WellFormed(w, s0) && |spents| == |done|
  {
    && TS.Inv(w, t) && t.irqEnabled
    && t == After(w, s0, done, spents)
    && faithful == Faithful(w, s0, done, spents)
    && (faithful ==> TS.Now(w, t) == total % Pow2(w))
    && |stamps| == |counts|
    && (faithful ==> forall j :: 0 <= j < |stamps| ==> stamps[j] == counts[j] % Pow2(w))
  }

  /** What holds after the rounds `done`, started from timer `s0`. */
  predicate LoopInv(cfg: Config, s0: TS.Timer, done: seq<Round>, st: Looping)
    requires cfg.Valid() && TS.WellFormed(cfg.width, s0) && RoundsShaped(done)
  {
    && ChannelsInv(cfg, done, st.app, st.stamps)
    && CountsInv(done, st.counts, st.readAts, st.spents, st.total)
    && PassesInv(cfg.width, s0, done, st.readAts, st.spents)
    && StampsInv(cfg.width, s0, done, st.stamps, st.readAts, st.spents)
    && ClockInv(cfg.width, s0, done, st.t, st.spents, st.faithful, st.total, st.stamps, st.counts)
  }

  /** One pass of `main`'s `while (1)`: the next round is served and recorded. */
  method NextRound(cfg: Config, s0: TS.Timer, done: seq<Round>, round: Round, st: Looping) returns (st': Looping)
    requires cfg.Valid() && TS.WellFormed(cfg.width, s0) && RoundsShaped(done) && RoundShaped(round)
    requires LoopInv(cfg, s0, done, st)
    ensures RoundsShaped(done + [round])
    ensures LoopInv(cfg, s0, done + [round], st')
  {
    var app, t, now, count, total, readAt, spent, ok := ServeRound(cfg, st.app, st.t, st.total, round);
    st' := Looping(app, t, st.stamps + [now], st.counts + [count], st.readAts + [readAt],
                   st.spents + [spent], st.faithful && ok, total);
    ShapedSnoc(done, round);
    ChannelsStep(cfg, done, round, st.app, app, st.stamps, now);
    CountsStep(done, round, st.counts, st.readAts, st.spents, st.total, readAt, spent, count, total);
    PassesStep(cfg.width, s0, done, round, st.t, st.readAts, st.spents, readAt, spent);
    StampsStep(cfg.width, s0, done, round, st.t, st.stamps, st.readAts, st.spents, now, readAt, spent);
    ClockStep(cfg.width, s0, done, round, st.t, st.spents, st.faithful, st.total, st.stamps, st.counts,
              spent, ok, now, count, t, total);
  }

  lemma ShapedSnoc(done: seq<Round>, round: Round)
    requires RoundsShaped(done) && RoundShaped(round)
    ensures RoundsShaped(done + [round])
    ensures (done + [round])[..|done|] == done && (done + [round])[|done|] == round
  {
    assert (done + [round])[..|done|] == done;
  }

  /** One more round steps every channel once more with that round's tick value and its own input. */
  lemma ChannelsStep(cfg: Config, done: seq<Round>, round: Round, app0: seq<Channel>, app: seq<Channel>,
                     stamps: seq<nat>, now: nat)
    requires cfg.Valid() && RoundsShaped(done) && RoundShaped(round) && RoundsShaped(done + [round])
    requires ChannelsInv(cfg, done, app0, stamps)
    requires InRange(cfg.Modulus(), now) && AppWellFormed(cfg, app)
    requires forall i :: 0 <= i < NUM_CHANNELS ==> app[i] == Step(cfg, app0[i], now, round.inputs[i])
    ensures ChannelsInv(cfg, done + [round], app, stamps + [now])
  {
    var k := |done|;
    forall i | 0 <= i < NUM_CHANNELS
      ensures OutputConsistent(app[i]) && Rank(app[i].state) <= k + 1
    {
      StepKeepsOutputConsistent(cfg, app0[i], now, round.inputs[i]);
    }
    forall i | 0 <= i < NUM_CHANNELS
      ensures app[i] == Run(cfg, Initial(), ChannelSamples(stamps + [now], done + [round], i))
    {
      var s := ChannelSamples(stamps + [now], done + [round], i);
      assert s[..k] == ChannelSamples(stamps, done, i);
      assert s[k] == Sample(now, round.inputs[i]);
    }
  }

  /** One more round adds its events and its critical section to the count. */
  lemma CountsStep(done: seq<Round>, round: Round, counts: seq<nat>, readAts: seq<nat>, spents: seq<nat>,
                   total: nat, readAt: nat, spent: nat, count: nat, total': nat)
    requires RoundsShaped(done) && RoundShaped(round) && RoundsShaped(done + [round])
    requires CountsInv(done, counts, readAts, spents, total)
    requires readAt <= spent
    requires count == total + TS.TickCount(round.events) + readAt
    requires total' == total + TS.TickCount(round.events) + spent
    ensures CountsInv(done + [round], counts + [count], readAts + [readAt], spents + [spent], total')
  {
    var k := |done|;
    var rs, ss, cs, ra := done + [round], spents + [spent], counts + [count], readAts + [readAt];
    assert rs[..k] == done && ss[..k] == spents;
    assert total' == CountOver(rs, ss);
    forall j | 0 <= j <= k
      ensures ra[j] <= ss[j]
      ensures cs[j] == CountOver(rs[..j], ss[..j]) + TS.TickCount(rs[j].events) + ra[j]
      ensures cs[j] <= total'
    {
      if j < k {
        assert rs[..j] == done[..j] && ss[..j] == spents[..j];
        assert rs[j] == done[j] && cs[j] == counts[j];
      }
    }
    CountsOrdered(counts, total, count);
  }

  /** A count no smaller than every earlier one keeps the recorded counts nondecreasing. */
  lemma CountsOrdered(counts: seq<nat>, total: nat, count: nat)
    requires forall i, j :: 0 <= i < j < |counts| ==> counts[i] <= counts[j]
    requires forall j :: 0 <= j < |counts| ==> counts[j] <= total
    requires total <= count
    ensures forall i, j :: 0 <= i < j < |counts + [count]| ==> (counts + [count])[i] <= (counts + [count])[j]
  {
    var cs, k := counts + [count], |counts|;
    forall i, j | 0 <= i < j <= k
      ensures cs[i] <= cs[j]
    {
      if j < k {
        assert cs[i] == counts[i] && cs[j] == counts[j];
      } else {
        assert cs[i] == counts[i] && counts[i] <= total;
      }
    }
  }

  /** One more round, sampled from the timer the earlier rounds left, records the pass it read TCNT0 in. */
  lemma PassesStep(w: nat, s0: TS.Timer, done: seq<Round>, round: Round, t: TS.Timer,
                   readAts: seq<nat>, spents: seq<nat>, readAt: nat, spent: nat)
    requires ValidWidth(w) && TS.WellFormed(w, s0) && RoundsShaped(done) && RoundShaped(round)
    requires RoundsShaped(done + [round]) && |readAts| == |spents| == |done|
    requires PassesInv(w, s0, done, readAts, spents)
    requires t == After(w, s0, done, spents)
    requires TS.OneOrTwoPasses(Ready(w, t, round).counter, round.env, readAt, spent)
    ensures PassesInv(w, s0, done + [round], readAts + [readAt], spents + [spent])
  {
    var k := |done|;
    var rs, ra, ss := done + [round], readAts + [readAt], spents + [spent];
    forall j | 0 <= j <= k
      ensures TS.OneOrTwoPasses(Sampled(w, s0, rs, ss, j).counter, rs[j].env, ra[j], ss[j])
    {
      if j < k {
        assert rs[..j] == done[..j] && ss[..j] == spents[..j];
        assert Sampled(w, s0, rs, ss, j) == Sampled(w, s0, done, spents, j);
      } else {
        assert rs[..k] == done && ss[..k] == spents;
      }
    }
  }

  /** One more round, sampled from the timer the earlier rounds left, records the tick value its TCNT0 read gives. */
  lemma StampsStep(w: nat, s0: TS.Timer, done: seq<Round>, round: Round, t: TS.Timer, stamps: seq<nat>,
                   readAts: seq<nat>, spents: seq<nat>, now: nat, readAt: nat, spent: nat)
    requires ValidWidth(w) && TS.WellFormed(w, s0) && RoundShaped(round)
    requires |stamps| == |readAts| == |spents| == |done|
    requires StampsInv(w, s0, done, stamps, readAts, spents)
    requires t == After(w, s0, done, spents)
    requires var t1 := Ready(w, t, round);
             now == TS.Now(w, t1.(counter := TS.Ticks(t1.counter, readAt)))
    ensures StampsInv(w, s0, done + [round], stamps + [now], readAts + [readAt], spents + [spent])
  {
    var k := |done|;
    var rs, st, ra, ss := done + [round], stamps + [now], readAts + [readAt], spents + [spent];
    forall j | 0 <= j <= k
      ensures var c := Sampled(w, s0, rs, ss, j);
              st[j] == TS.Now(w, c.(counter := TS.Ticks(c.counter, ra[j])))
    {
      if j < k {
        assert rs[..j] == done[..j] && ss[..j] == spents[..j];
        assert Sampled(w, s0, rs, ss, j) == Sampled(w, s0, done, spents, j);
      } else {
        assert rs[..k] == done && ss[..k] == spents;
      }
    }
  }

  /** One more round moves the timer on by that round; it stays faithful only if this round lost nothing. */
  lemma ClockStep(w: nat, s0: TS.Timer, done: seq<Round>, round: Round, t: TS.Timer, spents: seq<nat>,
                  faithful: bool, total: nat, stamps: seq<nat>, counts: seq<nat>,
                  spent: nat, ok: bool, now: nat, count: nat, t': TS.Timer, total': nat)
    requires ValidWidth(w) && TS.WellFormed(w, s0) && |spents| == |done|
    requires ClockInv(w, s0, done, t, spents, faithful, total, stamps, counts)
    requires ok == RoundFaithful(w, t, round, spent)
    requires t' == Served(w, t, round, spent) && TS.Inv(w, t') && t'.irqEnabled == t.irqEnabled
    requires ok && TS.Now(w, t) == total % Pow2(w) ==> now == count % Pow2(w) && TS.Now(w, t') == total' % Pow2(w)
    ensures ClockInv(w, s0, done + [round], t', spents + [spent], faithful && ok, total', stamps + [now], counts + [count])
  {
    var rs, ss := done + [round], spents + [spent];
    assert rs[..|done|] == done && ss[..|done|] == spents;
    assert rs[|done|] == round;
  }

  /** The wrap-around difference of any two tick values is the count between them, modulo `m`. */
  predicate MeasuresCounts(m: nat, stamps: seq<nat>, counts: seq<nat>)
    requires |stamps| == |counts|
    requires forall k :: 0 <= k < |stamps| ==> InRange(m, stamps[k])
  {
    forall i, j :: 0 <= i < j < |stamps| && counts[i] <= counts[j] ==>
      Sub(m, stamps[j], stamps[i]) == (counts[j] - counts[i]) % m
  }

  /**
    Tick values that are a nondecreasing count modulo `m` measure time: the
    wrap-around difference of two of them is the count between them, modulo `m`.
   */
  lemma StampsMeasureCounts(m: nat, stamps: seq<nat>, counts: seq<nat>)
    requires m > 0 && |stamps| == |counts|
    requires forall k :: 0 <= k < |stamps| ==> stamps[k] == counts[k] % m
    ensures forall k :: 0 <= k < |stamps| ==> InRange(m, stamps[k])
    ensures MeasuresCounts(m, stamps, counts)
  {
    forall i, j | 0 <= i < j < |stamps| && counts[i] <= counts[j]
      ensures Sub(m, stamps[j], stamps[i]) == (counts[j] - counts[i]) % m
    {
      SubOfResidues(m, counts[j], counts[i]);
    }
  }

  /**
    `main` over finitely many rounds.  Each channel is the initial record run
    through `Step` with the tick values read and its own inputs.  The count
    at each TCNT0 read is the number of hardware counts since `jiffies_init()`
    in the rounds before and in this round up to the read; `faithful` says
    whether the hardware lost an overflow anywhere, and while it did not, the
    tick values are exactly those counts modulo 2^w.
   */
  method MainLoop(cfg: Config, t0: TS.Timer, rounds: seq<Round>)
    returns (app: seq<Channel>, t: TS.Timer, stamps: seq<nat>, counts: seq<nat>,
             readAts: seq<nat>, spents: seq<nat>, faithful: bool)
    requires cfg.Valid() && TS.WellFormed(cfg.width, t0) && RoundsShaped(rounds)
    ensures |stamps| == |counts| == |readAts| == |spents| == |rounds|
    ensures forall k :: 0 <= k < |rounds| ==>
              TS.OneOrTwoPasses(Sampled(cfg.width, Started(cfg.width, t0), rounds, spents, k).counter,
                                rounds[k].env, readAts[k], spents[k])
    ensures forall k :: 0 <= k < |rounds| ==>
              counts[k] == CountOver(rounds[..k], spents[..k]) + TS.TickCount(rounds[k].events) + readAts[k]
    ensures forall k :: 0 <= k < |stamps| ==> InRange(cfg.Modulus(), stamps[k])
    ensures t == After(cfg.width, Started(cfg.width, t0), rounds, spents)
    ensures faithful == Faithful(cfg.width, Started(cfg.width, t0), rounds, spents)
    ensures StampsInv(cfg.width, Started(cfg.width, t0), rounds, stamps, readAts, spents)
    ensures AppWellFormed(cfg, app)
    ensures forall i :: 0 <= i < NUM_CHANNELS ==>
              app[i] == Run(cfg, Initial(), ChannelSamples(stamps, rounds, i))
    ensures forall i :: 0 <= i < NUM_CHANNELS ==> OutputConsistent(app[i]) && Rank(app[i].state) <= |rounds|
    ensures TS.Inv(cfg.width, t) && t.irqEnabled
    ensures forall i, j :: 0 <= i < j < |counts| ==> counts[i] <= counts[j]
    ensures faithful ==> forall k :: 0 <= k < |stamps| ==> stamps[k] == counts[k] % Pow2(cfg.width)
    ensures faithful ==> MeasuresCounts(Pow2(cfg.width), stamps, counts)
  {
    var w := cfg.width;
    t := t0.(irqEnabled := true);   // sei()
    t := TS.JiffiesInit(w, t);
    var s0 := t;
    app := seq(NUM_CHANNELS, _ => Initial());
    var st := Looping(app, t, [], [], [], [], true, 0);
    LoopStart(cfg, s0, st);
    st := Serve(cfg, s0, rounds, st);
    LoopDone(cfg, s0, rounds, st);
    app, t, stamps, counts, readAts, spents, faithful :=
      st.app, st.t, st.stamps, st.counts, st.readAts, st.spents, st.faithful;
  }

  /** The `while (1)` of `main`, from the state right after `jiffies_init()`, over the given rounds. */
  method Serve(cfg: Config, s0: TS.Timer, rounds: seq<Round>, st0: Looping) returns (st: Looping)
    requires cfg.Valid() && TS.WellFormed(cfg.width, s0) && RoundsShaped(rounds)
    requires LoopInv(cfg, s0, [], st0)
    ensures LoopInv(cfg, s0, rounds, st)
  {
    st := st0;
    var k := 0;
    var done: seq<Round> := [];
    while k < |rounds|
      invariant k <= |rounds| && done == rounds[..k]
      invariant RoundsShaped(done) && LoopInv(cfg, s0, done, st)
    {
      assert rounds[..k + 1] == done + [rounds[k]];
      st := NextRound(cfg, s0, done, rounds[k], st);
      done := done + [rounds[k]];
      k := k + 1;
    }
    assert done == rounds;
  }

  /** Right after `jiffies_init()`, with every channel zero-initialised, nothing has been served. */
  lemma LoopStart(cfg: Config, s0: TS.Timer, st: Looping)
    requires cfg.Valid() && TS.Inv(cfg.width, s0) && s0.irqEnabled && TS.Now(cfg.width, s0) == 0
    requires st == Looping(seq(NUM_CHANNELS, _ => Initial()), s0, [], [], [], [], true, 0)
    ensures RoundsShaped([]) && LoopInv(cfg, s0, [], st)
  {
    InitialConsistent(cfg);
    ModOfSmall(0, Pow2(cfg.width));
  }

  /** Once every round is served, the invariant is what `main` promises. */
  lemma LoopDone(cfg: Config, s0: TS.Timer, rounds: seq<Round>, st: Looping)
    requires cfg.Valid() && TS.WellFormed(cfg.width, s0) && RoundsShaped(rounds)
    requires LoopInv(cfg, s0, rounds, st)
    ensures |st.stamps| == |st.counts| == |st.readAts| == |st.spents| == |rounds|
    ensures forall k :: 0 <= k < |rounds| ==>
              TS.OneOrTwoPasses(Sampled(cfg.width, s0, rounds, st.spents, k).counter,
                                rounds[k].env, st.readAts[k], st.spents[k])
    ensures forall k :: 0 <= k < |rounds| ==>
              st.counts[k] == CountOver(rounds[..k], st.spents[..k]) + TS.TickCount(rounds[k].events) + st.readAts[k]
    ensures forall k :: 0 <= k < |st.stamps| ==> InRange(cfg.Modulus(), st.stamps[k])
    ensures st.t == After(cfg.width, s0, rounds, st.spents)
    ensures st.faithful == Faithful(cfg.width, s0, rounds, st.spents)
    ensures StampsInv(cfg.width, s0, rounds, st.stamps, st.readAts, st.spents)
    ensures AppWellFormed(cfg, st.app)
    ensures forall i :: 0 <= i < NUM_CHANNELS ==>
              st.app[i] == Run(cfg, Initial(), ChannelSamples(st.stamps, rounds, i))
    ensures forall i :: 0 <= i < NUM_CHANNELS ==>
              OutputConsistent(st.app[i]) && Rank(st.app[i].state) <= |rounds|
    ensures TS.Inv(cfg.width, st.t) && st.t.irqEnabled
    ensures forall i, j :: 0 <= i < j < |st.counts| ==> st.counts[i] <= st.counts[j]
    ensures st.faithful ==> forall k :: 0 <= k < |st.stamps| ==> st.stamps[k] == st.counts[k] % Pow2(cfg.width)
    ensures st.faithful ==> MeasuresCounts(Pow2(cfg.width), st.stamps, st.counts)
  {
    if st.faithful {
      StampsMeasureCounts(Pow2(cfg.width), st.stamps, st.counts);
    }
  }
}

=== FILE: fsm.dfy ===
/**
  The per-channel fan-monitor state machine of `fsm_run` (src/main.c).

  A channel first idles with its output floating (INIT, POWER_ON), then
  drives the output low while the fan spins up (SPIN_UP), and finally
  (RUNNING) floats the output -- the "locked rotor" alarm -- whenever the
  tachometer input toggled fewer than TOGGLE_COUNT_THRESHOLD times in the last
  completed sample window, and drives it low otherwise.  One call of `Step`
  is one pass of the `switch` for one channel.
 */
module Fsm {
  import opened Modular

  /** Delay, in ticks, before the output is first driven low. */
  const POWER_ON_JIFFIES: nat := 0

  /** SPIN_UP lasts this many sample windows. */
  const SPIN_UP_WINDOWS: nat := 5

  /** Fewer toggles than this in one window means the rotor is locked (600 RPM). */
  const TOGGLE_COUNT_THRESHOLD: nat := 40

  /** `toggles` is a `uint32_t`. */
  const TOGGLES_MODULUS: nat := 0x1_0000_0000


  /**
    The tick-type width and the sample window length, which the firmware
    takes from a header that is not part of this model.
   */
  datatype Config = Config(width: nat, sampleJiffies: nat)
  {
    /** Number of values of the tick type. */
    function Modulus(): nat
    {
      Pow2(width)
    }

    /** SPIN_UP_JIFFIES: whole sample windows, as the source demands. */
    function SpinUpJiffies(): nat
    {
      sampleJiffies * SPIN_UP_WINDOWS
    }

    /**
      The tick type is at least 16 bits wide.  SPIN_UP_JIFFIES may exceed
      it, in which case SPIN_UP never ends.
     */
    predicate Valid()
    {
      ValidWidth(width)
    }
  }

  datatype State = Init | PowerOn | SpinUp | Running

  /** Position of a state in the forward order INIT < POWER_ON < SPIN_UP < RUNNING. */
  function Rank(s: State): nat
  {
    match s
    case Init => 0
    case PowerOn => 1
    case SpinUp => 2
    case Running => 3
  }

  /** States in which input toggles are counted. */
  predicate Accumulating(s: State)
  {
    s == SpinUp || s == Running
  }

  /**
    The last command given to the channel's output pin: high impedance
    (pulled up externally: locked rotor) or actively low (fan OK).
   */
  datatype Output = Float | DriveLow

  /** The command RUNNING derives from a window verdict. */
  function OutputFor(underThreshold: bool): Output
  {
    if underThreshold then Float else DriveLow
  }

  /** One `struct rpm_to_locked_rotor_channel`, plus the pin's last command. */
  datatype Channel = Channel(
    state: State,
    time: nat,
    prevSampleTime: nat,
    underThreshold: bool,
    prevInputState: bool,
    toggles: nat,
    output: Output)

  /** Every field holds a value of its C type. */
  predicate WellFormed(cfg: Config, ch: Channel)
  {
    InRange(cfg.Modulus(), ch.time)
    && InRange(cfg.Modulus(), ch.prevSampleTime)
    && InRange(TOGGLES_MODULUS, ch.toggles)
  }

  /** The statically zero-initialised channel; the output pin starts as an input (floating). */
  function Initial(): Channel
  {
    Channel(Init, 0, 0, false, false, 0, Float)
  }

  /** Ticks from `since` to `now`, with unsigned wrap-around. */
  function Elapsed(cfg: Config, now: nat, since: nat): nat
    requires InRange(cfg.Modulus(), now) && InRange(cfg.Modulus(), since)
  {
    Sub(cfg.Modulus(), now, since)
  }

  /** Does a step at `now` close a sample window that began at `start`? */
  predicate WindowDue(cfg: Config, start: nat, now: nat)
    requires InRange(cfg.Modulus(), start) && InRange(cfg.Modulus(), now)
  {
    Elapsed(cfg, now, start) > cfg.sampleJiffies
  }

  /** 1 when `input` differs from the last level seen, else 0. */
  function EdgeOf(prev: bool, input: bool): nat
  {
    if input != prev then 1 else 0
  }

  /**
    Edge detection: a changed input level counts one toggle (the `uint32_t`
    increment wraps) and becomes the remembered level.
   */
  function DetectEdge(ch: Channel, input: bool): (r: Channel)
    requires InRange(TOGGLES_MODULUS, ch.toggles)
    ensures r.prevInputState == input
    ensures r.toggles == Add(TOGGLES_MODULUS, ch.toggles, EdgeOf(ch.prevInputState, input))
    ensures r.(toggles := ch.toggles, prevInputState := ch.prevInputState) == ch
  {
    if input != ch.prevInputState then
      ch.(toggles := Add(TOGGLES_MODULUS, ch.toggles, 1), prevInputState := input)
    else
      ch
  }

  /**
    Window bookkeeping: once more than a window's worth of ticks has passed
    since the window began, the verdict becomes "fewer toggles than the
    threshold", and a new empty window starts at `now`.
   */
  function CloseWindow(cfg: Config, ch: Channel, now: nat): (r: Channel)
    requires WellFormed(cfg, ch) && InRange(cfg.Modulus(), now)
    ensures WindowDue(cfg, ch.prevSampleTime, now) ==>
              && (r.underThreshold <==> ch.toggles < TOGGLE_COUNT_THRESHOLD)
              && r.toggles == 0
              && r.prevSampleTime == now
              && r.(underThreshold := ch.underThreshold, toggles := ch.toggles,
                    prevSampleTime := ch.prevSampleTime) == ch
    ensures !WindowDue(cfg, ch.prevSampleTime, now) ==> r == ch
  {
    if WindowDue(cfg, ch.prevSampleTime, now) then
      ch.(underThreshold := !(ch.toggles >= TOGGLE_COUNT_THRESHOLD),
          toggles := 0,
          prevSampleTime := now)
    else
      ch
  }

  /**
    The sub-algorithm SPIN_UP and RUNNING share: count this step's edge,
    then close the window if it is due -- so an edge seen on the closing step
    belongs to the window being closed.
   */
  function Accumulate(cfg: Config, ch: Channel, now: nat, input: bool): (r: Channel)
    requires WellFormed(cfg, ch) && InRange(cfg.Modulus(), now)
    ensures WellFormed(cfg, r)
    ensures r.prevInputState == input
    ensures r.state == ch.state && r.time == ch.time && r.output == ch.output
    ensures var counted := Add(TOGGLES_MODULUS, ch.toggles, EdgeOf(ch.prevInputState, input));
            if WindowDue(cfg, ch.prevSampleTime, now) then
              && (r.underThreshold <==> counted < TOGGLE_COUNT_THRESHOLD)
              && r.toggles == 0
              && r.prevSampleTime == now
            else
              && r.underThreshold == ch.underThreshold
              && r.toggles == counted
              && r.prevSampleTime == ch.prevSampleTime
  {
    CloseWindow(cfg, DetectEdge(ch, input), now)
  }

  /**
    One pass of the `switch` in `fsm_run` for one channel, at tick `now` with
    the channel's input level `input` (read only in SPIN_UP and RUNNING).
   */
  function Step(cfg: Config, ch: Channel, now: nat, input: bool): (r: Channel)
    requires cfg.Valid() && WellFormed(cfg, ch) && InRange(cfg.Modulus(), now)
    ensures WellFormed(cfg, r)
    // progress is forward only and one state at a time
    ensures Rank(ch.state) <= Rank(r.state) <= Rank(ch.state) + 1
    // INIT: unconditionally to POWER_ON, remembering when
    ensures ch.state == Init ==> r == ch.(state := PowerOn, time := now)
    // POWER_ON: leaves exactly when the delay has passed, driving the output low
    ensures ch.state == PowerOn ==>
              (r.state == SpinUp <==> Elapsed(cfg, now, ch.time) > POWER_ON_JIFFIES)
    ensures ch.state == PowerOn && r.state == SpinUp ==>
              r == ch.(state := SpinUp, time := now, prevSampleTime := now, output := DriveLow)
    ensures ch.state == PowerOn && r.state == PowerOn ==> r == ch
    // SPIN_UP and RUNNING count toggles and close windows the same way
    ensures Accumulating(ch.state) ==>
              r.(state := ch.state, output := ch.output) == Accumulate(cfg, ch, now, input)
    // SPIN_UP: leaves exactly when the spin-up time has passed; never touches the pin
    ensures ch.state == SpinUp ==>
              && (r.state == Running <==> Elapsed(cfg, now, ch.time) > cfg.SpinUpJiffies())
              && r.output == ch.output
    // RUNNING: absorbing, and the pin follows the latest verdict
    ensures ch.state == Running ==> r.state == Running && r.output == OutputFor(r.underThreshold)
  {
    match ch.state
    case Init =>
      ch.(time := now, state := PowerOn)
    case PowerOn =>
      if Elapsed(cfg, now, ch.time) > POWER_ON_JIFFIES then
        ch.(output := DriveLow, state := SpinUp, time := now, prevSampleTime := now)
      else
        ch
    case SpinUp =>
      var acc := Accumulate(cfg, ch, now, input);
      if Elapsed(cfg, now, acc.time) > cfg.SpinUpJiffies() then
        acc.(state := Running)
      else
        acc
    case Running =>
      var acc := Accumulate(cfg, ch, now, input);
      if acc.underThreshold then
        acc.(output := Float)
      else
        acc.(output := DriveLow)
  }

  /**
    Output as a function of state: INIT and POWER_ON keep the pin floating,
    SPIN_UP keeps it low, and in RUNNING the pin is floating only when the
    last verdict says "under threshold" (it is still low on the step that
    entered RUNNING, before the first RUNNING pass has driven it).
   */
  predicate OutputConsistent(ch: Channel)
  {
    match ch.state
    case Init => ch.output == Float
    case PowerOn => ch.output == Float
    case SpinUp => ch.output == DriveLow
    case Running => ch.output == DriveLow || ch.output == OutputFor(ch.underThreshold)
  }

  lemma InitialConsistent(cfg: Config)
    requires cfg.Valid()
    ensures WellFormed(cfg, Initial()) && OutputConsistent(Initial())
    ensures Initial().state == Init && Initial().toggles == 0
  {
  }

  /** Every step keeps the output consistent with the state. */
  lemma StepKeepsOutputConsistent(cfg: Config, ch: Channel, now: nat, input: bool)
    requires cfg.Valid() && WellFormed(cfg, ch) && InRange(cfg.Modulus(), now)
    requires OutputConsistent(ch)
    ensures OutputConsistent(Step(cfg, ch, now, input))
  {
  }

  /**
    SPIN_UP lasts at least one whole window, so a channel that has not closed
    a window since entering SPIN_UP closes one on the very step that enters
    RUNNING: the first verdict RUNNING acts on comes from a complete window.
   */
  lemma SpinUpEndsWithVerdict(cfg: Config, ch: Channel, now: nat, input: bool)
    requires cfg.Valid() && WellFormed(cfg, ch) && InRange(cfg.Modulus(), now)
    requires ch.state == SpinUp && ch.prevSampleTime == ch.time
    requires Step(cfg, ch, now, input).state == Running
    ensures WindowDue(cfg, ch.prevSampleTime, now)
    ensures var r := Step(cfg, ch, now, input);
            r.toggles == 0 && r.prevSampleTime == now
  {
  }

  /**
    SPIN_UP_JIFFIES is compared with an unsigned difference of two tick
    values, which is at most 2^w - 1.  SPIN_UP can end exactly when
    SPIN_UP_JIFFIES is below that: otherwise the channel stays in SPIN_UP
    whatever the clock says, and when it is below, the tick value 2^w - 1
    ticks after entering SPIN_UP ends it.
   */
  lemma SpinUpEndsOnlyIfReachable(cfg: Config, ch: Channel, input: bool)
    requires cfg.Valid() && WellFormed(cfg, ch) && ch.state == SpinUp
    ensures cfg.SpinUpJiffies() >= cfg.Modulus() - 1 ==>
              forall now :: InRange(cfg.Modulus(), now) ==> Step(cfg, ch, now, input).state == SpinUp
    ensures cfg.SpinUpJiffies() < cfg.Modulus() - 1 ==>
              Step(cfg, ch, Add(cfg.Modulus(), ch.time, cfg.Modulus() - 1), input).state == Running
  {
    var m := cfg.Modulus();
    if cfg.SpinUpJiffies() >= m - 1 {
      forall now | InRange(m, now)
        ensures Step(cfg, ch, now, input).state == SpinUp
      {
        assert Elapsed(cfg, now, ch.time) <= cfg.SpinUpJiffies();
      }
    } else {
      var late := Add(m, ch.time, m - 1);
      SubUnique(m, late, ch.time, m - 1);
      assert Elapsed(cfg, late, ch.time) > cfg.SpinUpJiffies();
    }
  }
}

=== FILE: fsm_trace.dfy ===
/**
  Finite runs of one channel: the channel stepped once per `fsm_run` call,
  with the tick value and input level of each call.  The properties here
  relate many steps: forward-only progress, the output invariant, and the
  toggle count of a sample window against an independent count of the edges
  in the input.
 */
module FsmTrace {
  import opened Modular
  import opened Fsm

  /** What one `fsm_run` call gives a channel: the tick value and its input level. */
  datatype Sample = Sample(now: nat, input: bool)

  predicate TimesInRange(cfg: Config, s: seq<Sample>)
  {
    forall k :: 0 <= k < |s| ==> InRange(cfg.Modulus(), s[k].now)
  }

  /** The channel after one step per sample, oldest sample first. */
  function Run(cfg: Config, ch: Channel, s: seq<Sample>): (r: Channel)
    requires cfg.Valid() && WellFormed(cfg, ch) && TimesInRange(cfg, s)
    ensures WellFormed(cfg, r)
    decreases |s|
  {
    if |s| == 0 then
      ch
    else
      var last := s[|s| - 1];
      Step(cfg, Run(cfg, ch, s[..|s| - 1]), last.now, last.input)
  }

  /** Running `a` and then `b` is running `a + b`. */
  lemma {:induction false} RunSplit(cfg: Config, ch: Channel, a: seq<Sample>, b: seq<Sample>)
    requires cfg.Valid() && WellFormed(cfg, ch) && TimesInRange(cfg, a + b)
    ensures TimesInRange(cfg, a) && TimesInRange(cfg, b)
    ensures Run(cfg, ch, a + b) == Run(cfg, Run(cfg, ch, a), b)
    decreases |b|
  {
    assert forall k :: 0 <= k < |a| ==> a[k] == (a + b)[k];
    assert forall k :: 0 <= k < |b| ==> b[k] == (a + b)[|a| + k];
    if |b| == 0 {
      assert a + b == a;
    } else {
      var b' := b[..|b| - 1];
      assert (a + b)[..|a + b| - 1] == a + b';
      RunSplit(cfg, ch, a, b');
    }
  }

  /** Along a run the state rank grows by at most one per step and never falls. */
  lemma {:induction false} RunRankBounds(cfg: Config, ch: Channel, s: seq<Sample>)
    requires cfg.Valid() && WellFormed(cfg, ch) && TimesInRange(cfg, s)
    ensures Rank(ch.state) <= Rank(Run(cfg, ch, s).state) <= Rank(ch.state) + |s|
    decreases |s|
  {
    if |s| > 0 {
      RunRankBounds(cfg, ch, s[..|s| - 1]);
    }
  }

  /** The state never moves back: a later point of a run has at least the rank of an earlier one. */
  lemma NeverRegresses(cfg: Config, ch: Channel, s: seq<Sample>, i: nat, j: nat)
    requires cfg.Valid() && WellFormed(cfg, ch) && TimesInRange(cfg, s)
    requires i <= j <= |s|
    ensures TimesInRange(cfg, s[..i]) && TimesInRange(cfg, s[..j])
    ensures Rank(Run(cfg, ch, s[..i]).state) <= Rank(Run(cfg, ch, s[..j]).state)
  {
    assert s[..j] == s[..i] + s[i..j];
    RunSplit(cfg, ch, s[..i], s[i..j]);
    RunRankBounds(cfg, Run(cfg, ch, s[..i]), s[i..j]);
  }

  /** RUNNING is absorbing. */
  lemma RunningIsAbsorbing(cfg: Config, ch: Channel, s: seq<Sample>)
    requires cfg.Valid() && WellFormed(cfg, ch) && TimesInRange(cfg, s)
    requires ch.state == Running
    ensures Run(cfg, ch, s).state == Running
  {
    RunRankBounds(cfg, ch, s);
  }

  /** The output invariant holds all along every run. */
  lemma {:induction false} RunKeepsOutputConsistent(cfg: Config, ch: Channel, s: seq<Sample>)
    requires cfg.Valid() && WellFormed(cfg, ch) && TimesInRange(cfg, s)
    requires OutputConsistent(ch)
    ensures OutputConsistent(Run(cfg, ch, s))
    decreases |s|
  {
    if |s| > 0 {
      var last := s[|s| - 1];
      RunKeepsOutputConsistent(cfg, ch, s[..|s| - 1]);
      StepKeepsOutputConsistent(cfg, Run(cfg, ch, s[..|s| - 1]), last.now, last.input);
    }
  }

  /** Every channel that `fsm_run` has stepped from power-on shows the output its state calls for. */
  lemma ReachableOutputConsistent(cfg: Config, s: seq<Sample>)
    requires cfg.Valid() && TimesInRange(cfg, s)
    ensures WellFormed(cfg, Initial())
    ensures OutputConsistent(Run(cfg, Initial(), s))
    ensures Rank(Run(cfg, Initial(), s).state) <= |s|
  {
    InitialConsistent(cfg);
    RunKeepsOutputConsistent(cfg, Initial(), s);
    RunRankBounds(cfg, Initial(), s);
  }

  /** The input level last seen: that of the last sample, or `prev` when there is none. */
  function LastInput(prev: bool, s: seq<Sample>): bool
  {
    if |s| == 0 then prev else s[|s| - 1].input
  }

  /** Number of level changes in the inputs of `s`, the level before the first being `prev`. */
  function Edges(prev: bool, s: seq<Sample>): nat
    decreases |s|
  {
    if |s| == 0 then
      0
    else
      var front := s[..|s| - 1];
      Edges(prev, front) + EdgeOf(LastInput(prev, front), s[|s| - 1].input)
  }

  /** No sample of `s` comes late enough to close the window `ch` has open. */
  predicate NoWindowCloses(cfg: Config, ch: Channel, s: seq<Sample>)
    requires WellFormed(cfg, ch) && TimesInRange(cfg, s)
  {
    forall k :: 0 <= k < |s| ==> !WindowDue(cfg, ch.prevSampleTime, s[k].now)
  }

  /** A SPIN_UP or RUNNING step that closes no window only counts the edge. */
  lemma StepInsideWindow(cfg: Config, ch: Channel, now: nat, input: bool, x: nat)
    requires cfg.Valid() && WellFormed(cfg, ch) && InRange(cfg.Modulus(), now)
    requires Accumulating(ch.state) && !WindowDue(cfg, ch.prevSampleTime, now)
    requires ch.toggles == x % TOGGLES_MODULUS
    ensures var r := Step(cfg, ch, now, input);
            && Accumulating(r.state)
            && r.toggles == (x + EdgeOf(ch.prevInputState, input)) % TOGGLES_MODULUS
            && r.prevInputState == input
            && r.prevSampleTime == ch.prevSampleTime
            && r.underThreshold == ch.underThreshold
  {
    var r := Step(cfg, ch, now, input);
    assert r.(state := ch.state, output := ch.output) == Accumulate(cfg, ch, now, input);
    ModAddLeft(x, EdgeOf(ch.prevInputState, input), TOGGLES_MODULUS);
  }

  /** The last sample of a run is one more step, and one more possible edge. */
  lemma RunSnoc(cfg: Config, ch: Channel, s: seq<Sample>)
    requires cfg.Valid() && WellFormed(cfg, ch) && TimesInRange(cfg, s) && |s| > 0
    ensures TimesInRange(cfg, s[..|s| - 1])
    ensures Run(cfg, ch, s) == Step(cfg, Run(cfg, ch, s[..|s| - 1]), s[|s| - 1].now, s[|s| - 1].input)
    ensures Edges(ch.prevInputState, s)
         == Edges(ch.prevInputState, s[..|s| - 1])
            + EdgeOf(LastInput(ch.prevInputState, s[..|s| - 1]), s[|s| - 1].input)
    ensures NoWindowCloses(cfg, ch, s) ==>
              NoWindowCloses(cfg, ch, s[..|s| - 1]) && !WindowDue(cfg, ch.prevSampleTime, s[|s| - 1].now)
  {
  }

  /**
    Inside one sample window, the toggle count grows by exactly the number of
    input level changes (modulo the `uint32_t` width), the remembered level is
    the last one seen, and neither the verdict nor the window start moves.
   */
  lemma {:induction false} WindowAccumulates(cfg: Config, ch: Channel, s: seq<Sample>)
    requires cfg.Valid() && WellFormed(cfg, ch) && TimesInRange(cfg, s)
    requires Accumulating(ch.state)
    requires NoWindowCloses(cfg, ch, s)
    ensures var r := Run(cfg, ch, s);
            && Accumulating(r.state)
            && r.toggles == (ch.toggles + Edges(ch.prevInputState, s)) % TOGGLES_MODULUS
            && r.prevInputState == LastInput(ch.prevInputState, s)
            && r.prevSampleTime == ch.prevSampleTime
            && r.underThreshold == ch.underThreshold
    decreases |s|
  {
    if |s| == 0 {
      ModOfSmall(ch.toggles, TOGGLES_MODULUS);
    } else {
      var front, last := s[..|s| - 1], s[|s| - 1];
      RunSnoc(cfg, ch, s);
      WindowAccumulates(cfg, ch, front);
      StepInsideWindow(cfg, Run(cfg, ch, front), last.now, last.input,
                       ch.toggles + Edges(ch.prevInputState, front));
    }
  }

  /**
    The verdict of a window is taken over exactly the edges seen since the
    window opened, the edge of the closing step included: with toggles at 0
    when the window opened, the verdict is "under threshold" exactly when
    fewer than TOGGLE_COUNT_THRESHOLD level changes were seen (modulo 2^32).
   */
  lemma WindowVerdict(cfg: Config, ch: Channel, s: seq<Sample>, last: Sample)
    requires cfg.Valid() && WellFormed(cfg, ch) && TimesInRange(cfg, s)
    requires Accumulating(ch.state)
    requires NoWindowCloses(cfg, ch, s)
    requires InRange(cfg.Modulus(), last.now) && WindowDue(cfg, ch.prevSampleTime, last.now)
    ensures TimesInRange(cfg, s + [last])
    ensures var r := Run(cfg, ch, s + [last]);
            var seen := (ch.toggles + Edges(ch.prevInputState, s + [last])) % TOGGLES_MODULUS;
            && r.toggles == 0
            && r.prevSampleTime == last.now
            && (r.underThreshold <==> seen < TOGGLE_COUNT_THRESHOLD)
  {
    WindowAccumulates(cfg, ch, s);
    RunAppend(cfg, ch, s, last);
    StepClosesWindow(cfg, Run(cfg, ch, s), last.now, last.input, ch.toggles, ch.prevSampleTime,
                     Edges(ch.prevInputState, s), LastInput(ch.prevInputState, s),
                     Edges(ch.prevInputState, s + [last]), Run(cfg, ch, s + [last]));
  }

  /** In RUNNING, the pin follows the verdict of every step, the one closing a window included. */
  lemma RunningPinFollowsVerdict(cfg: Config, ch: Channel, s: seq<Sample>)
    requires cfg.Valid() && WellFormed(cfg, ch) && TimesInRange(cfg, s)
    requires ch.state == Running && |s| > 0
    ensures var r := Run(cfg, ch, s);
            r.state == Running && r.output == OutputFor(r.underThreshold)
  {
    RunningIsAbsorbing(cfg, ch, s[..|s| - 1]);
  }

  /** Appending a sample to a run is one more step, and one more possible edge. */
  lemma RunAppend(cfg: Config, ch: Channel, s: seq<Sample>, last: Sample)
    requires cfg.Valid() && WellFormed(cfg, ch) && TimesInRange(cfg, s) && InRange(cfg.Modulus(), last.now)
    ensures TimesInRange(cfg, s + [last])
    ensures Run(cfg, ch, s + [last]) == Step(cfg, Run(cfg, ch, s), last.now, last.input)
    ensures Edges(ch.prevInputState, s + [last])
         == Edges(ch.prevInputState, s) + EdgeOf(LastInput(ch.prevInputState, s), last.input)
  {
    var s' := s + [last];
    assert s'[..|s'| - 1] == s;
    assert s'[|s'| - 1] == last;
  }

  /**
    A SPIN_UP or RUNNING step that closes the window judges the count with
    this step's edge included.  The window opened at `start` with `toggles0`
    toggles and has seen `edges` level changes, the last level being `level`;
    `seen` counts the closing step's change as well.
   */
  lemma StepClosesWindow(cfg: Config, p: Channel, now: nat, input: bool, toggles0: nat, start: nat,
                         edges: nat, level: bool, seen: nat, r: Channel)
    requires cfg.Valid() && WellFormed(cfg, p) && InRange(cfg.Modulus(), now)
    requires Accumulating(p.state)
    requires p.toggles == (toggles0 + edges) % TOGGLES_MODULUS
    requires p.prevInputState == level
    requires p.prevSampleTime == start
    requires WindowDue(cfg, start, now)
    requires seen == edges + EdgeOf(level, input)
    requires r == Step(cfg, p, now, input)
    ensures && r.toggles == 0
            && r.prevSampleTime == now
            && (r.underThreshold <==> (toggles0 + seen) % TOGGLES_MODULUS < TOGGLE_COUNT_THRESHOLD)
  {
    assert r.(state := p.state, output := p.output) == Accumulate(cfg, p, now, input);
    ModAddLeft(toggles0 + edges, EdgeOf(level, input), TOGGLES_MODULUS);
  }
}

=== FILE: modular.dfy ===
/**
  Unsigned fixed-width tick arithmetic.

  The firmware's tick type (`jiffies_t`) is an unsigned integer of some width
  `w` that is not fixed here; every sum and difference of tick values wraps
  modulo 2^w.  On the AVR target `int` is 16 bits wide, so for `w >= 16` the
  C usual arithmetic conversions keep `a - b` unsigned and the wrap-around is
  exactly `% 2^w`.
 */
module Modular {

  /** 2 to the power `n`. */
  function Pow2(n: nat): (r: nat)
    ensures r >= 1
    ensures n >= 1 ==> r % 2 == 0
  {
    if n == 0 then 1 else 2 * Pow2(n - 1)
  }

  /** Narrowest tick type for which the subtraction in the source is unsigned. */
  const MIN_WIDTH: nat := 16

  predicate ValidWidth(w: nat)
  {
    w >= MIN_WIDTH
  }

  lemma {:induction false} Pow2Add(a: nat, b: nat)
    ensures Pow2(a + b) == Pow2(a) * Pow2(b)
    decreases a
  {
    if a > 0 {
      Pow2Add(a - 1, b);
    }
  }

  /** A counter of a valid width wraps at a multiple of 256, above 2^16. */
  lemma ValidWidthModulus(w: nat)
    requires ValidWidth(w)
    ensures Pow2(w) % 256 == 0
    ensures Pow2(w) >= 0x1_0000
  {
    assert Pow2(8) == 256;
    Pow2Add(8, 8);
    assert Pow2(16) == 0x1_0000;
    Pow2Add(16, w - 16);
    MulAtLeast(Pow2(w - 16), Pow2(16));
    Pow2Add(w - 8, 8);
    ModUnique(Pow2(w), 256, Pow2(w - 8), 0);
  }

  lemma MulAtLeast(k: int, m: int)
    requires k >= 1 && m > 0
    ensures k * m >= m
  {}

  /** Euclidean division has exactly one quotient and remainder. */
  lemma ModUnique(x: int, m: int, q: int, r: int)
    requires m > 0 && 0 <= r < m && x == q * m + r
    ensures x % m == r && x / m == q
  {
    var q0, r0 := x / m, x % m;
    assert x == q0 * m + r0;
    assert (q - q0) * m == r0 - r;
    if q > q0 {
      MulAtLeast(q - q0, m);
    } else if q < q0 {
      MulAtLeast(q0 - q, m);
    }
  }

  lemma ModOfSmall(x: nat, m: nat)
    requires m > 0
    ensures x < m ==> x % m == x
    ensures m <= x < 2 * m ==> x % m == x - m
  {
    if x < m {
      ModUnique(x, m, 0, x);
    } else if x < 2 * m {
      ModUnique(x, m, 1, x - m);
    }
  }

  /** Reducing a summand first does not change the sum's residue. */
  lemma ModAddLeft(a: int, b: int, m: int)
    requires m > 0
    ensures (a % m + b) % m == (a + b) % m
  {
    var s := a % m + b;
    var q1, r1 := s / m, s % m;
    assert s == q1 * m + r1;
    assert a == (a / m) * m + a % m;
    assert a + b == (a / m + q1) * m + r1;
    ModUnique(a + b, m, a / m + q1, r1);
  }

  /** A value of an unsigned type with `m` values. */
  predicate InRange(m: nat, x: int)
  {
    0 <= x < m
  }

  /** Unsigned sum, wrapping modulo `m`. */
  function Add(m: nat, a: nat, b: nat): (r: nat)
    requires m > 0
    ensures InRange(m, r)
    ensures a + b < m ==> r == a + b
    ensures m <= a + b < 2 * m ==> r == a + b - m
  {
    ModOfSmall(a + b, m);
    (a + b) % m
  }

  /** Unsigned difference `a - b` modulo `m` (C `a - b` on an unsigned type). */
  function Sub(m: nat, a: nat, b: nat): (r: nat)
    requires InRange(m, a) && InRange(m, b)
    ensures InRange(m, r)
  {
    if b <= a then a - b else a + m - b
  }

  /** Adding the difference back to `b` gives `a`: `Sub` inverts `Add`. */
  lemma AddSub(m: nat, a: nat, b: nat)
    requires InRange(m, a) && InRange(m, b)
    ensures Add(m, b, Sub(m, a, b)) == a
  {
    ModOfSmall(b + Sub(m, a, b), m);
  }

  /** The wrap-around difference of two residues is the residue of the true difference. */
  lemma SubOfResidues(m: nat, a: nat, b: nat)
    requires m > 0 && b <= a
    ensures InRange(m, a % m) && InRange(m, b % m)
    ensures Sub(m, a % m, b % m) == (a - b) % m
  {
    var qa, ra, qb, rb := a / m, a % m, b / m, b % m;
    assert a == qa * m + ra && b == qb * m + rb;
    assert a - b == (qa - qb) * m + (ra - rb);
    if rb <= ra {
      ModUnique(a - b, m, qa - qb, ra - rb);
    } else {
      assert a - b == (qa - qb - 1) * m + (ra + m - rb);
      ModUnique(a - b, m, qa - qb - 1, ra + m - rb);
    }
  }

  /** `Sub` is the only inverse of `Add`: the wrap-around difference is well defined. */
  lemma SubUnique(m: nat, a: nat, b: nat, r: nat)
    requires InRange(m, a) && InRange(m, b) && InRange(m, r)
    requires Add(m, b, r) == a
    ensures r == Sub(m, a, b)
  {
    if b + r < m {
      ModUnique(b + r, m, 0, b + r);
    } else {
      ModUnique(b + r, m, 1, b + r - m);
    }
  }
}

=== FILE: tick_source.dfy ===
/**
  The tick source of src/jiffies.c.

  Timer 0 has an 8-bit count register TCNT0 and an overflow flag TOV0 that
  the hardware sets when TCNT0 wraps from 255 to 0.  The overflow interrupt
  adds 256 to the software accumulator `timer_ticks_hi`; the hardware clears
  TOV0 on entry to it.  `jiffies()` composes accumulator, count and flag into
  the tick value.

  The hardware and the interrupt are modelled as two kinds of abstract
  event, interleaved between the firmware's own steps: a count (`Tick`) and
  an interrupt (`Isr`).  Inside a critical section only counts can happen.
 */
module TickSource {
  import opened Modular

  /** TCNT0 counts 0..255. */
  const COUNTER_RANGE: nat := 256

  /**
    Register-read slots of one `jiffies()` call: the sampling loop reads
    three registers per pass and provably makes at most two passes.
   */
  const READ_SLOTS: nat := 6

  /** TCNT0 and the TOV0 bit of TIFR. */
  datatype Counter = Counter(tcnt: nat, ovf: bool)

  /** Everything the tick source depends on: accumulator, count register, interrupt enable (SREG I). */
  datatype Timer = Timer(hi: nat, counter: Counter, irqEnabled: bool)

  predicate CounterOk(c: Counter)
  {
    c.tcnt < COUNTER_RANGE
  }

  /** Both parts hold values of their C types (`jiffies_t` is `w` bits wide). */
  predicate WellFormed(w: nat, t: Timer)
  {
    InRange(Pow2(w), t.hi) && CounterOk(t.counter)
  }

  /** The accumulator only ever holds whole counter periods. */
  predicate Inv(w: nat, t: Timer)
  {
    WellFormed(w, t) && t.hi % COUNTER_RANGE == 0
  }

  /**
    Abstract elapsed time: the accumulator plus the count plus the overflow
    that has happened but is not yet folded in, modulo 2^w.
   */
  function Now(w: nat, t: Timer): nat
    requires WellFormed(w, t)
  {
    (t.hi + t.counter.tcnt + (if t.counter.ovf then COUNTER_RANGE else 0)) % Pow2(w)
  }

  /** One count of the hardware: 255 wraps to 0 and sets the overflow flag. */
  function Tick(c: Counter): (r: Counter)
    requires CounterOk(c)
    ensures CounterOk(r)
    ensures r.tcnt == (c.tcnt + 1) % COUNTER_RANGE
    ensures r.ovf == (c.ovf || c.tcnt + 1 == COUNTER_RANGE)
  {
    if c.tcnt == COUNTER_RANGE - 1 then Counter(0, true) else c.(tcnt := c.tcnt + 1)
  }

  /** A count that wraps while an overflow is still pending loses that overflow. */
  predicate LosesOverflow(c: Counter)
  {
    c.ovf && c.tcnt == COUNTER_RANGE - 1
  }

  /** `n` counts in a row. */
  function Ticks(c: Counter, n: nat): (r: Counter)
    requires CounterOk(c)
    ensures CounterOk(r)
    ensures c.ovf ==> r.ovf
    decreases n
  {
    if n == 0 then c else Ticks(Tick(c), n - 1)
  }

  lemma {:induction false} TicksAdd(c: Counter, a: nat, b: nat)
    requires CounterOk(c)
    ensures Ticks(c, a + b) == Ticks(Ticks(c, a), b)
    decreases a
  {
    if a > 0 {
      TicksAdd(Tick(c), a - 1, b);
    }
  }

  /** `n` counts from `c` lose no overflow: at most one overflow is ever pending. */
  predicate CanTick(c: Counter, n: nat)
  {
    c.tcnt + n < (if c.ovf then COUNTER_RANGE else 2 * COUNTER_RANGE)
  }

  /** Without a lost overflow, `n` counts move the count by `n` and set the flag when it wraps. */
  lemma {:induction false} TicksClosedForm(c: Counter, n: nat)
    requires CounterOk(c) && CanTick(c, n)
    ensures Ticks(c, n) ==
              if c.tcnt + n < COUNTER_RANGE then Counter(c.tcnt + n, c.ovf)
              else Counter(c.tcnt + n - COUNTER_RANGE, true)
    decreases n
  {
    if n > 0 {
      TicksClosedForm(Tick(c), n - 1);
    }
  }

  /** Abstract time advances by exactly the number of counts, while no overflow is lost. */
  lemma TicksAdvanceNow(w: nat, t: Timer, n: nat)
    requires WellFormed(w, t) && CanTick(t.counter, n)
    ensures WellFormed(w, t.(counter := Ticks(t.counter, n)))
    ensures Now(w, t.(counter := Ticks(t.counter, n))) == (Now(w, t) + n) % Pow2(w)
  {
    TicksClosedForm(t.counter, n);
    var x := t.hi + t.counter.tcnt + (if t.counter.ovf then COUNTER_RANGE else 0);
    ModAddLeft(x, n, Pow2(w));
  }

  /**
    The overflow interrupt `ISR(TIMER0_OVF_vect)`: the hardware clears the
    flag on entry, the handler adds one counter period to the accumulator.
   */
  function Isr(w: nat, t: Timer): (r: Timer)
    requires ValidWidth(w) && WellFormed(w, t)
    requires t.irqEnabled && t.counter.ovf
    ensures WellFormed(w, r)
    ensures r.hi == Add(Pow2(w), t.hi, COUNTER_RANGE)
    ensures r.counter.tcnt == t.counter.tcnt && !r.counter.ovf && r.irqEnabled
    ensures Now(w, r) == Now(w, t)
    ensures Inv(w, t) ==> Inv(w, r)
  {
    var m := Pow2(w);
    ModAddLeft(t.hi + COUNTER_RANGE, t.counter.tcnt, m);
    AddPeriodKeepsWhole(w, t.hi);
    Timer(Add(m, t.hi, COUNTER_RANGE), t.counter.(ovf := false), t.irqEnabled)
  }

  /** A multiple of 256 plus 256 is still one modulo 2^w, as 2^w is one too. */
  lemma AddPeriodKeepsWhole(w: nat, hi: nat)
    requires ValidWidth(w) && InRange(Pow2(w), hi)
    ensures hi % COUNTER_RANGE == 0 ==> Add(Pow2(w), hi, COUNTER_RANGE) % COUNTER_RANGE == 0
  {
    var m := Pow2(w);
    ValidWidthModulus(w);
    if hi % COUNTER_RANGE == 0 {
      var q := hi / COUNTER_RANGE;
      assert hi == q * COUNTER_RANGE;
      assert m == (m / COUNTER_RANGE) * COUNTER_RANGE;
      if hi + COUNTER_RANGE < m {
        ModUnique(hi + COUNTER_RANGE, COUNTER_RANGE, q + 1, 0);
      } else {
        ModUnique(hi + COUNTER_RANGE - m, COUNTER_RANGE, q + 1 - m / COUNTER_RANGE, 0);
      }
    }
  }

  /** `spin_lock_irqsave()`: remember the interrupt-enable bit, then disable interrupts. */
  function SpinLockIrqSave(t: Timer): (bool, Timer)
  {
    (t.irqEnabled, t.(irqEnabled := false))
  }

  /** `spin_unlock_irqrestore()`: put back the remembered interrupt-enable bit. */
  function SpinUnlockIrqRestore(t: Timer, saved: bool): Timer
  {
    t.(irqEnabled := saved)
  }

  /**
    `jiffies_init()`: with interrupts held off, zero the count, clear any
    pending overflow and zero the accumulator; afterwards elapsed time is 0
    and the interrupt-enable bit is what it was.
   */
  function JiffiesInit(w: nat, t: Timer): (r: Timer)
    requires ValidWidth(w)
    ensures Inv(w, r) && Now(w, r) == 0
    ensures !r.counter.ovf
    ensures r.irqEnabled == t.irqEnabled
  {
    var (saved, locked) := SpinLockIrqSave(t);
    var cleared := locked.(counter := Counter(0, false), hi := 0);
    ModOfSmall(0, Pow2(w));
    SpinUnlockIrqRestore(cleared, saved)
  }

  /**
    The first pass of the sampling loop saw the overflow flag change between
    its two reads of TIFR (`env[0]` counts before the first read, `env[2]`
    more after the TCNT0 read), so `jiffies()` samples again.
   */
  predicate FlagChangedInFirstPass(c: Counter, env: seq<nat>)
    requires CounterOk(c) && |env| == READ_SLOTS
  {
    Ticks(c, env[0]).ovf != Ticks(c, env[0] + env[1] + env[2]).ovf
  }

  /**
    Where the sampling loop of `jiffies()`, entered with counter `c`, reads
    TCNT0 (`readAt` counts into the critical section) and how many counts
    the section lasts (`spent`): in the first pass when its two reads of TIFR
    agree, otherwise in the second pass, which always ends the loop.
   */
  predicate OneOrTwoPasses(c: Counter, env: seq<nat>, readAt: nat, spent: nat)
    requires CounterOk(c) && |env| == READ_SLOTS
  {
    if FlagChangedInFirstPass(c, env) then
      readAt == env[0] + env[1] + env[2] + env[3] + env[4] && spent == readAt + env[5]
    else
      readAt == env[0] + env[1] && spent == readAt + env[2]
  }

  /**
    `jiffies()`.  `env[j]` is the number of counts the hardware makes just
    before the `j`-th register read of the critical section.  The result is
    the abstract time at the instant TCNT0 was read (`readAt` counts into the
    critical section); on return the only change is the `spent` counts, and
    the interrupt-enable bit is back to its value on entry.
   */
  method Jiffies(w: nat, t: Timer, env: seq<nat>) returns (ret: nat, t': Timer, readAt: nat, spent: nat)
    requires WellFormed(w, t)
    requires |env| == READ_SLOTS
    ensures OneOrTwoPasses(t.counter, env, readAt, spent)
    ensures readAt <= spent
    ensures WellFormed(w, t.(counter := Ticks(t.counter, readAt)))
    ensures ret == Now(w, t.(counter := Ticks(t.counter, readAt)))
    ensures CanTick(t.counter, spent) ==> ret == (Now(w, t) + readAt) % Pow2(w)
    ensures t' == t.(counter := Ticks(t.counter, spent))
    ensures WellFormed(w, t')
    ensures CanTick(t.counter, spent) ==> Now(w, t') == (Now(w, t) + spent) % Pow2(w)
  {
    var (saved, locked) := SpinLockIrqSave(t);
    var c0 := locked.counter;
    var c := c0;
    var k := 0;
    var sampled := false;
    var before, tcnt, after := false, 0, false;
    readAt, spent := 0, 0;
    // the do { ... } while (tifr_before != tifr_after) loop
    while !sampled || before != after
      invariant (k == 0 && !sampled && spent == 0) || (k == 3 && sampled) || (k == 6 && sampled && before == after)
      invariant k == 3 ==> readAt == env[0] + env[1] && spent == readAt + env[2]
      invariant k == 6 ==> readAt == env[0] + env[1] + env[2] + env[3] + env[4] && spent == readAt + env[5]
      invariant k == 3 ==> before == Ticks(c0, env[0]).ovf && after == Ticks(c0, env[0] + env[1] + env[2]).ovf
      invariant k == 6 ==> FlagChangedInFirstPass(c0, env)
      invariant c == Ticks(c0, spent)
      invariant sampled ==> readAt <= spent && after == c.ovf
      invariant sampled ==> tcnt == Ticks(c0, readAt).tcnt
      invariant sampled ==> (before ==> Ticks(c0, readAt).ovf) && (Ticks(c0, readAt).ovf ==> after)
      decreases (if sampled then 0 else 2) + (if before != after then 1 else 0)
    {
      TicksAdd(c0, spent, env[k]);
      c := Ticks(c, env[k]);
      before := c.ovf;
      TicksAdd(c0, spent + env[k], env[k + 1]);
      c := Ticks(c, env[k + 1]);
      tcnt := c.tcnt;
      readAt := spent + env[k] + env[k + 1];
      TicksAdd(c0, readAt, env[k + 2]);
      c := Ticks(c, env[k + 2]);
      after := c.ovf;
      spent := readAt + env[k + 2];
      k, sampled := k + 3, true;
    }
    ret := Add(Pow2(w), t.hi, tcnt);
    t' := SpinUnlockIrqRestore(locked.(counter := c), saved);
    if before {
      ret := Add(Pow2(w), ret, COUNTER_RANGE);
    }
    ReadIsNow(w, t, readAt, tcnt, before, ret);
    if CanTick(t.counter, spent) {
      TicksAdvanceNow(w, t, spent);
      TicksAdvanceNow(w, t, readAt);
    }
  }

  /**
    Accumulator plus count, plus one period when the flag was seen set, is
    the abstract time at the instant the count was read.
   */
  lemma ReadIsNow(w: nat, t: Timer, readAt: nat, tcnt: nat, before: bool, ret: nat)
    requires WellFormed(w, t)
    requires tcnt == Ticks(t.counter, readAt).tcnt && before == Ticks(t.counter, readAt).ovf
    requires ret == if before then Add(Pow2(w), Add(Pow2(w), t.hi, tcnt), COUNTER_RANGE)
                    else Add(Pow2(w), t.hi, tcnt)
    ensures WellFormed(w, t.(counter := Ticks(t.counter, readAt)))
    ensures ret == Now(w, t.(counter := Ticks(t.counter, readAt)))
  {
    ModAddLeft(t.hi + tcnt, if before then COUNTER_RANGE else 0, Pow2(w));
    ModOfSmall(ret, Pow2(w));
  }

  /** What the hardware can do between two of the firmware's own steps. */
  datatype Event = HwTick | Interrupt

  /**
    One event.  A count always happens; the interrupt is taken only when it
    is enabled and an overflow is pending, and is otherwise no event at all.
   */
  function Apply(w: nat, t: Timer, e: Event): (r: Timer)
    requires ValidWidth(w) && WellFormed(w, t)
    ensures WellFormed(w, r)
    ensures r.irqEnabled == t.irqEnabled
    ensures Inv(w, t) ==> Inv(w, r)
  {
    match e
    case HwTick => t.(counter := Tick(t.counter))
    case Interrupt => if t.irqEnabled && t.counter.ovf then Isr(w, t) else t
  }

  /** The events, oldest first. */
  function Replay(w: nat, t: Timer, evs: seq<Event>): (r: Timer)
    requires ValidWidth(w) && WellFormed(w, t)
    ensures WellFormed(w, r)
    ensures r.irqEnabled == t.irqEnabled
    decreases |evs|
  {
    if |evs| == 0 then t else Replay(w, Apply(w, t, evs[0]), evs[1..])
  }

  /** No count in `evs` loses a pending overflow. */
  predicate Admissible(w: nat, t: Timer, evs: seq<Event>)
    requires ValidWidth(w) && WellFormed(w, t)
    decreases |evs|
  {
    |evs| == 0 ||
    ((evs[0] == HwTick ==> !LosesOverflow(t.counter)) && Admissible(w, Apply(w, t, evs[0]), evs[1..]))
  }

  function TickCount(evs: seq<Event>): nat
    decreases |evs|
  {
    if |evs| == 0 then 0 else (if evs[0] == HwTick then 1 else 0) + TickCount(evs[1..])
  }

  /** A count adds one to abstract time, an interrupt leaves it alone; it keeps the invariant. */
  lemma ApplyNow(w: nat, t: Timer, e: Event)
    requires ValidWidth(w) && WellFormed(w, t)
    requires e == HwTick ==> !LosesOverflow(t.counter)
    ensures Now(w, Apply(w, t, e)) == (Now(w, t) + (if e == HwTick then 1 else 0)) % Pow2(w)
  {
    if e == HwTick {
      TicksAdvanceNow(w, t, 1);
    } else {
      ModOfSmall(Now(w, t), Pow2(w));
    }
  }

  /** However the events interleave, the accumulator keeps holding whole counter periods. */
  lemma {:induction false} ReplayKeepsInv(w: nat, t: Timer, evs: seq<Event>)
    requires ValidWidth(w) && Inv(w, t)
    ensures Inv(w, Replay(w, t, evs))
    decreases |evs|
  {
    if |evs| > 0 {
      ReplayKeepsInv(w, Apply(w, t, evs[0]), evs[1..]);
    }
  }

  /**
    Interrupts never change the abstract time and every count adds one: after
    any admissible interleaving, abstract time has moved by the number of
    counts, modulo 2^w.
   */
  lemma {:induction false} ReplayNow(w: nat, t: Timer, evs: seq<Event>)
    requires ValidWidth(w) && WellFormed(w, t) && Admissible(w, t, evs)
    ensures Now(w, Replay(w, t, evs)) == (Now(w, t) + TickCount(evs)) % Pow2(w)
    decreases |evs|
  {
    if |evs| == 0 {
      ModOfSmall(Now(w, t), Pow2(w));
    } else {
      var d := if evs[0] == HwTick then 1 else 0;
      ApplyNow(w, t, evs[0]);
      ReplayNow(w, Apply(w, t, evs[0]), evs[1..]);
      ModAddLeft(Now(w, t) + d, TickCount(evs[1..]), Pow2(w));
    }
  }
}
